=== FILE: README.md ===
# HTML-Game simulation core, modelled in Dafny

The game is a small browser arcade shooter. The player's ship moves with the
arrow keys and fires volleys of bullets on a timer. Enemies drop from the top
edge. Each destroyed enemy leaves an experience orb. Collecting orbs raises the
ship's experience, and every fifth point raises its level, which widens the
volley. This project models the simulation behind `updateGame`,
`shootBullet`, `spawnEnemy` and the reset in `startGame`.

The model is an explicit state record: the ship, the bullet, enemy and orb
lists, and the running flag. Each operation is a pure function of that
state, of the canvas width `W` and height `H` and, for a frame, of the held
keys or, for a spawn, of the random number. Coordinates are `real`.

- `seqs.dfy` (`Seqs`): `Filter`/`Map` and `SpliceFilter`. `SpliceFilter` is
  `updateGame`'s in-place "splice the element out and step the index back"
  loop, proved equal to map-then-filter.
- `geometry.dfy` (`Geometry`): boxes and the strict overlap test.
- `entities.dfy` (`Entities`): the settings constants, the four entity
  records and the held-key map.
- `movement.dfy` (`Movement`): the ship-movement sub-step.
- `pickup.dfy` (`Pickup`): the orb-pickup sub-step, as a functional
  definition and as `updateGame`'s loop, with the experience/level arithmetic.
- `collision.dfy` (`Collision`): the bullet–enemy collision sub-step, as a
  recursive definition and as `updateGame`'s nested loop.
- `spawner.dfy` (`Spawner`): the bullet volley and the spawned enemy.
- `game.dfy` (`Game`): the state, one frame, the reset, the timer ticks,
  and runs of host events. The events are key press/release, frame, shoot
  tick, spawn tick and play. Play is the play button: `startGame` resets
  the state and then calls `updateGame` once (game.js:219), so `Play` is
  the reset followed by one frame.

Three behaviours of the code are easy to misread; the model follows the
code:

- Ship movement is not a clamp. Each key's bound check runs before its move,
  so the ship can end up past an edge by less than one step (5 units).
  `Movement.MoveOvershootsEdge` shows a ship ending at `x = -2`. The bound
  that does hold is `-5 < x < W - width + 5`, and likewise for `y`.
- The volley is centred on the ship's centre (`x + width / 2`), not on its
  `x` coordinate.
- A spawned enemy's horizontal range uses the ship size (30), which equals
  the enemy size.

## Model

| member | source | states |
|---|---|---|
| Geometry.OverlapsIffSharedInterior | game.js:130-135 | for boxes of positive size, the four strict comparisons hold exactly when the two open rectangles share a point, so boxes that only touch at an edge do not collide |
| Entities.KeyDown | game.js:234-236 | a key-down marks that key held and leaves every other key as it was |
| Entities.KeyUp | game.js:238-240 | a key-up marks that key released and leaves every other key as it was |
| Movement.AxisStep | game.js:78-89 | on one axis the net move is -5, 0 or +5; a move happens only for a held key whose bound check passes; a lone held key moves by exactly 5 when its check passes and not at all when it fails; with both keys held, the increasing key's check sees the position after the decreasing move, which fixes the result in all four cases; no key means no move; the band `-5 < p < limit + 5` is preserved |
| Movement.MoveShip | game.js:78-89 | size, experience and level are unchanged; each axis moves by -5, 0 or +5, and only when the bound check for that direction passes; left and up only decrease a coordinate, right and down only increase it; a lone held key moves the ship 5 its way when its check passes and leaves it in place when the check fails; an axis with neither of its keys held does not move; the overshoot band is preserved on both axes |
| Movement.MoveOvershootsEdge | game.js:78-79 | with the left key held, a ship at x = 3 ends at x = -2, so the step is not a clamp |
| Seqs.SpliceFilter | game.js:92-107 | the splice-and-step-back loop visits every element once and skips none; its result is the input mapped and then filtered, in the original order |
| Game.MoveBullets | game.js:92-98 | a bullet survives exactly when it is an input bullet moved up by 7 whose new y is at least 0 |
| Game.MoveBulletsLoop | game.js:92-98 | `updateGame`'s bullet loop yields exactly the bullet sub-step |
| Game.MoveEnemies | game.js:101-107 | an enemy survives exactly when it is an input enemy moved down by 3 whose new y is at most H |
| Game.MoveEnemiesLoop | game.js:101-107 | `updateGame`'s enemy loop yields exactly the enemy sub-step |
| Pickup.CollectOrbs | game.js:110-125 | an orb remains exactly when it was present and the ship does not touch it; experience grows by the number of touched orbs, which is the number removed; level grows by the number of multiples of 5 crossed; the ship's box is unchanged; `level == 1 + xp / 5` is preserved |
| Pickup.PickupTurn | game.js:110-123 | one pass of the pickup loop body, with its splice, `i--` and threshold check, tests exactly the next input orb: the orb is dropped exactly when the ship touches it, and experience and level advance by that one orb |
| Pickup.CollectOrbsLoop | game.js:110-125 | `updateGame`'s orb pickup loop, which adds experience and levels one orb at a time, yields exactly the pickup sub-step |
| Pickup.LevelUpsClosedForm | game.js:117-122 | raising experience one point at a time from xp to xp + n gives (xp + n) / 5 - xp / 5 level-ups |
| Collision.FirstHit | game.js:129-135 | returns the first enemy position the bullet overlaps, with none before it overlapping; returns none only when the bullet overlaps no enemy |
| Collision.OrbAt | game.js:137-141 | the dropped orb is equidistant from the enemy's left and right edges and from its top and bottom edges, and has radius 5 |
| Collision.Resolve | game.js:129-145 | one bullet's turn either keeps the bullet, appended last, when it overlaps no enemy present, leaving the enemies and the destroyed list as they were, or spends it on the first enemy it overlaps, which is removed from the enemies and appended to the destroyed list; no enemy is lost or duplicated |
| Collision.TurnsAccounting | game.js:128-148 | over any run of turns, bullets kept plus enemies destroyed grow by one per turn, and surviving plus destroyed enemies stay the same multiset |
| Collision.Collide | game.js:128-148 | the number of bullets removed equals the number of enemies destroyed; every enemy either survives or is destroyed, exactly once (multiset partition) |
| Collision.ResolveSeparates | game.js:129-145 | a bullet survives its turn only when it overlaps none of the enemies present, so one turn keeps surviving bullets and enemies apart |
| Collision.TurnsSeparate | game.js:128-148 | any run of turns keeps surviving bullets and enemies apart, and every surviving bullet is an earlier survivor or a bullet still to come |
| Collision.CollideSeparates | game.js:128-148 | after the sub-step the surviving bullets are input bullets and no surviving bullet overlaps a surviving enemy |
| Collision.Drops | game.js:137-142 | orb i is the orb left by the i-th destroyed enemy, at its centre with radius 5, so there is one orb per destroyed enemy in destruction order |
| Collision.MissStep | game.js:129-135 | a bullet that overlaps no enemy stays where it is, and the loop moves past it with its turn taken |
| Collision.HitStep | game.js:136-145 | splicing out the bullet and its first overlapped enemy and stepping the index back takes that bullet's turn |
| Collision.ScanEnemies | game.js:129-145 | the inner scan, stopped by `break`, returns the position of the first overlapped enemy, and runs to the end exactly when there is none |
| Collision.CollideTurn | game.js:129-146 | one pass of the outer loop body, with its splices, orb push and `i--`, takes exactly the current bullet's turn and appends exactly the orb of the enemy it destroys |
| Collision.CollideLoop | game.js:128-148 | `updateGame`'s nested collision loop with its splices, `i--` and `break` yields exactly the collision sub-step's bullets and enemies, with the dropped orbs appended to the orb list |
| Spawner.Volley | game.js:174-181 | a volley has exactly `level` bullets, each 5 x 10 at the ship's y; neighbours are 10 apart; the bullets mirror each other about the ship's centre |
| Spawner.VolleyCentred | game.js:176 | the bullet centres of a volley sum to `level` times the ship's centre, so their mean is the ship's centre |
| Spawner.NewEnemy | game.js:163-168 | a spawned enemy is 30 x 30 at y = 0; for W > 30 its x lies in [0, W - 30) |
| Spawner.NewEnemyOrdered | game.js:163-168 | on a canvas wider than 30, a larger random number never places the spawned enemy further left |
| Spawner.NewEnemyOnto | game.js:163-168 | on a canvas wider than 30, every x in [0, W - 30) is the position spawned from some random number in [0, 1), so the range is the whole interval |
| Game.StartShip | game.js:209-212 | the reset ship is horizontally centred with its bottom edge 10 above the canvas bottom, at 0 experience and level 1, and keeps its size |
| Game.Initial | game.js:23-36 | at load the game is not running, all lists are empty, and the ship is 30 x 30 with 0 experience at level 1, horizontally centred with its bottom edge 10 above the canvas bottom |
| Game.StartGame | game.js:203-215 | a new run sets the running flag, empties all three lists whatever was left in them, resets experience and level, puts the ship horizontally centred with its bottom edge 10 above the canvas bottom, and on a canvas wider than 20 and taller than 35 that is inside the movement band |
| Game.UpdateGame | game.js:77-148 | a frame keeps the running flag; afterwards all bullets have y >= 0 and all enemies have y <= H; experience and level never decrease; the movement band and the level invariant are preserved |
| Game.FrameOrbsAccounting | game.js:110-148 | orbs dropped in a frame are not collected in that frame: the experience gained equals the number of pre-existing orbs the moved ship touches, the untouched ones and all new orbs are in the list, and the orb count changes by new orbs minus collected ones |
| Game.FrameKillAccounting | game.js:128-148 | in a frame, the bullets spent, the enemies destroyed and the orbs dropped are equally many, and every moved enemy either survives or is destroyed |
| Game.ShootBullet | game.js:172-182 | when not running nothing changes; when running the ship's volley, `level` bullets, is appended after the existing ones; nothing else changes |
| Game.SpawnEnemy | game.js:161-170 | when not running nothing changes; when running exactly one enemy is appended, the 30 x 30 enemy spawned from `rnd`, at y = 0 and for W > 30 with x in [0, W - 30); nothing else changes |
| Game.InitialValid | game.js:23-30 | on a canvas wider than 20 and taller than 35, the load-time state satisfies the level invariant, the fixed ship size and the movement band |
| Game.RunValid | game.js:117-122 | on a canvas wider than 20 and taller than 35, after any run of events from a valid state, `level == 1 + xp / 5`, the ship keeps its size and stays in the movement band |
| Game.RunLevelInvariant | game.js:117-122 | on any canvas, after any run of events from a ship with `level == 1 + xp / 5`, that equation still holds |
| Game.RunLevelMonotone | game.js:117-122 | within a run, with no new start, level and experience never decrease |
| Game.RunStaysRunning | game.js:203-204 | nothing clears the running flag: once set it stays set through any run of events |
| Game.PickupScenario | game.js:111-122 | a ship at (100, 100) touching an orb at (110, 110) gains one experience point, stays at level 1, and the orb is gone |
| Game.LevelUpScenario | game.js:117-122 | the fifth experience point raises level 1 to level 2 |
| Game.CollisionScenario | game.js:130-143 | a 5 x 10 bullet at (50, 50) and a 30 x 30 enemy at (48, 55) destroy each other and leave an orb at (63, 70) |

## Left out

- Rendering: canvas clearing, the background image and the draw functions. They draw only and change no state.
- DOM updates: the experience/level labels, the start/highscore screen switching and the settings alert. These are UI side effects.
- Highscore: it is only read from `localStorage` at load and shown; it is never written.
- Scheduling: `setInterval`, `requestAnimationFrame` and the event listeners are replaced by an explicit event sequence (`Game.Run`). Several timers armed by repeated starts just add more tick events. Interleavings are therefore covered, but timing is not.
- `Math.random` is a parameter `rnd` in [0, 1). The model states the range of the result, not the uniform distribution.
- JavaScript floating point: coordinates are exact reals. Rounding in `width / 2`, `- 2.5`, `x + r` and `x - r` is not modelled; the model writes an orb's square as corner `x - r` with side `2r`, whose far edge `x - r + 2r` equals `x + r` on the reals.
- Spawner.NewEnemy: for canvases no wider than 30, only the non-strict range `W - 30 <= x <= 0` is stated.
- The spawn and shoot periods (2000 ms, 500 ms) are recorded as constants but play no part: time is not modelled.

=== FILE: collision.dfy ===
/** Bullet-enemy collision, the last sub-step of a frame. Bullets are taken in
    list order; each one destroys the first enemy, among those still present,
    that it overlaps, and both disappear. Every destroyed enemy leaves an
    experience orb at its centre. */
module Collision {
  import opened Seqs
  import opened Geometry
  import opened Entities

  datatype Option<T> = None | Some(value: T)

  predicate Hits(b: Bullet, e: Enemy)
  {
    Overlaps(b.Box(), e.Box())
  }

  /** The orb a destroyed enemy leaves behind: centred on the enemy, with the
      fixed orb radius. */
  function OrbAt(e: Enemy): (o: Orb)
    ensures o.radius == OrbRadius
    ensures o.x - e.x == (e.x + e.width) - o.x
    ensures o.y - e.y == (e.y + e.height) - o.y
  {
    Orb(e.x + e.width / 2.0, e.y + e.height / 2.0, OrbRadius)
  }

  /** Position of the first enemy the bullet overlaps, scanning the list from
      the front, or None when it overlaps none. */
  function FirstHit(b: Bullet, es: seq<Enemy>): (r: Option<nat>)
    ensures r.Some? ==> r.value < |es| && Hits(b, es[r.value])
    ensures r.Some? ==> forall k :: 0 <= k < r.value ==> !Hits(b, es[k])
    ensures r.None? ==> forall k :: 0 <= k < |es| ==> !Hits(b, es[k])
  {
    if es == [] then None
    else if Hits(b, es[0]) then Some(0)
    else match FirstHit(b, es[1..])
      case None => None
      case Some(j) => Some(j + 1)
  }

  /** What the collision sub-step leaves: the surviving bullets and enemies,
      and the enemies destroyed, in the order they were destroyed. */
  datatype Outcome = Outcome(bullets: seq<Bullet>, enemies: seq<Enemy>, killed: seq<Enemy>)

  /** One bullet's turn: it meets the enemies still present. If it overlaps
      one, it and the first such enemy are gone and the enemy joins the
      destroyed list; otherwise the bullet survives. */
  function Resolve(r: Outcome, b: Bullet): (r': Outcome)
    ensures |r'.bullets| + |r'.killed| == |r.bullets| + |r.killed| + 1
    ensures multiset(r'.enemies) + multiset(r'.killed) == multiset(r.enemies) + multiset(r.killed)
    // a miss: the bullet overlaps no enemy present and survives, last in line
    ensures |r'.killed| == |r.killed| ==>
              && r'.bullets == r.bullets + [b] && r'.enemies == r.enemies && r'.killed == r.killed
              && forall k :: 0 <= k < |r.enemies| ==> !Hits(b, r.enemies[k])
    // a hit: the bullet is spent on the first enemy it overlaps, which is
    // removed from the enemies and appended to the destroyed list
    ensures |r'.killed| != |r.killed| ==>
              exists j :: && 0 <= j < |r.enemies| && Hits(b, r.enemies[j])
                          && (forall k :: 0 <= k < j ==> !Hits(b, r.enemies[k]))
                          && r'.bullets == r.bullets
                          && r'.enemies == RemoveAt(r.enemies, j)
                          && r'.killed == r.killed + [r.enemies[j]]
  {
    match FirstHit(b, r.enemies)
    case None => Outcome(r.bullets + [b], r.enemies, r.killed)
    case Some(j) => Outcome(r.bullets, RemoveAt(r.enemies, j), r.killed + [r.enemies[j]])
  }

  /** The remaining bullets take their turns, in list order, starting from
      what the earlier turns left. */
  function Turns(acc: Outcome, rest: seq<Bullet>): Outcome
    decreases |rest|
  {
    if rest == [] then acc else Turns(Resolve(acc, rest[0]), rest[1..])
  }

  /** Each turn spends its bullet or destroys one enemy with it, and an enemy
      leaves the surviving list only by joining the destroyed one. */
  lemma {:induction false} TurnsAccounting(acc: Outcome, rest: seq<Bullet>)
    ensures var r := Turns(acc, rest);
            |r.bullets| + |r.killed| == |acc.bullets| + |acc.killed| + |rest|
    ensures var r := Turns(acc, rest);
            multiset(r.enemies) + multiset(r.killed) == multiset(acc.enemies) + multiset(acc.killed)
    decreases |rest|
  {
    if rest != [] {
      TurnsAccounting(Resolve(acc, rest[0]), rest[1..]);
    }
  }

  /** The collision sub-step: all bullets take their turns against the
      enemies, nothing destroyed yet. */
  function Collide(bs: seq<Bullet>, es: seq<Enemy>): (r: Outcome)
    // one bullet is spent per destroyed enemy
    ensures |bs| - |r.bullets| == |r.killed|
    // every enemy either survives or is destroyed, exactly once
    ensures multiset(r.enemies) + multiset(r.killed) == multiset(es)
  {
    TurnsAccounting(Outcome([], es, []), bs);
    Turns(Outcome([], es, []), bs)
  }

  /** No bullet of the outcome overlaps an enemy of the outcome. */
  ghost predicate Separated(r: Outcome)
  {
    forall b, e :: b in r.bullets && e in r.enemies ==> !Hits(b, e)
  }

  /** One turn keeps bullets and enemies apart: the bullet survives only if
      it overlapped none of the enemies present, and otherwise an enemy is
      removed. The surviving bullets are the earlier ones and possibly `b`. */
  lemma ResolveSeparates(acc: Outcome, b: Bullet)
    requires Separated(acc)
    ensures Separated(Resolve(acc, b))
    ensures forall x :: x in Resolve(acc, b).bullets ==> x in acc.bullets || x == b
  {
    var next := Resolve(acc, b);
    match FirstHit(b, acc.enemies)
    case None =>
      assert next.bullets == acc.bullets + [b] && next.enemies == acc.enemies;
      forall x, e | x in next.bullets && e in next.enemies
        ensures !Hits(x, e)
      {
        if x == b {
          var k :| 0 <= k < |acc.enemies| && acc.enemies[k] == e;
        }
      }
    case Some(j) =>
      forall e | e in next.enemies
        ensures e in acc.enemies
      {
        assert e in multiset(next.enemies);
      }
  }

  /** Turns keep bullets and enemies apart, and the surviving bullets are
      earlier survivors or bullets of the remaining list. */
  lemma {:induction false} TurnsSeparate(acc: Outcome, rest: seq<Bullet>)
    requires Separated(acc)
    ensures Separated(Turns(acc, rest))
    ensures forall b :: b in Turns(acc, rest).bullets ==> b in acc.bullets || b in rest
    decreases |rest|
  {
    if rest != [] {
      ResolveSeparates(acc, rest[0]);
      TurnsSeparate(Resolve(acc, rest[0]), rest[1..]);
      assert forall x :: x in rest[1..] ==> x in rest;
    }
  }

  /** After the sub-step the surviving bullets are input bullets and none of
      them overlaps a surviving enemy. */
  lemma CollideSeparates(bs: seq<Bullet>, es: seq<Enemy>)
    ensures forall b :: b in Collide(bs, es).bullets ==> b in bs
    ensures forall b, e :: b in Collide(bs, es).bullets && e in Collide(bs, es).enemies
                       ==> !Hits(b, e)
  {
    TurnsSeparate(Outcome([], es, []), bs);
  }

  /** The orbs the destroyed enemies leave, in destruction order. */
  function Drops(killed: seq<Enemy>): (os: seq<Orb>)
    ensures |os| == |killed|
    ensures forall i :: 0 <= i < |os| ==> os[i] == OrbAt(killed[i])
    ensures forall i :: 0 <= i < |os| ==> os[i].radius == OrbRadius
  {
    Map(OrbAt, killed)
  }

  /** A bullet at position `i` that overlaps no enemy stays, and its turn is
      taken. */
  lemma MissStep(bs: seq<Bullet>, es: seq<Enemy>, killed: seq<Enemy>, i: nat)
    requires i < |bs|
    requires FirstHit(bs[i], es).None?
    ensures Turns(Outcome(bs[..i + 1], es, killed), bs[i + 1..])
         == Turns(Outcome(bs[..i], es, killed), bs[i..])
  {
    assert bs[i..][0] == bs[i];
    assert bs[i..][1..] == bs[i + 1..];
    assert bs[..i + 1] == bs[..i] + [bs[i]];
  }

  /** A bullet at position `i` whose first overlap is enemy `j` is spliced out
      with that enemy, which joins the destroyed list, and its turn is
      taken. */
  lemma HitStep(bs: seq<Bullet>, es: seq<Enemy>, killed: seq<Enemy>, i: nat, j: nat,
                bs': seq<Bullet>, es': seq<Enemy>, killed': seq<Enemy>)
    requires i < |bs|
    requires FirstHit(bs[i], es) == Some(j)
    requires bs' == bs[..i] + bs[i + 1..]
    requires es' == es[..j] + es[j + 1..]
    requires killed' == killed + [es[j]]
    ensures Turns(Outcome(bs'[..i], es', killed'), bs'[i..])
         == Turns(Outcome(bs[..i], es, killed), bs[i..])
  {
    assert bs[i..][0] == bs[i];
    assert bs[i..][1..] == bs[i + 1..];
    assert bs'[..i] == bs[..i];
    assert bs'[i..] == bs[i + 1..];
  }

  /** `updateGame`'s inner scan over the enemies for one bullet, stopped by
      `break` at the first overlap: returns that enemy's position, or -1 when
      the scan runs to the end. */
  method ScanEnemies(b: Bullet, es: seq<Enemy>) returns (j: int)
    ensures j == -1 <==> FirstHit(b, es).None?
    ensures j != -1 ==> 0 <= j < |es| && FirstHit(b, es) == Some(j)
  {
    j := 0;
    while j < |es|
      invariant 0 <= j <= |es|
      invariant forall jj :: 0 <= jj < j ==> !Hits(b, es[jj])
      decreases |es| - j
    {
      if Hits(b, es[j]) {
        return;
      }
      j := j + 1;
    }
    j := -1;
  }

  /** One pass of the body of `updateGame`'s collision loop at bullet
      position `i`: scan the enemies; at the first overlap splice the bullet out, push an orb at
      the enemy's centre, splice the enemy out and step the index back. The
      index the loop continues from is `i' + 1`. `killed` and `orbs0` record,
      for the proof only, the enemies destroyed so far and the orb list before
      the loop. */
  method CollideTurn(bs: seq<Bullet>, es: seq<Enemy>, os: seq<Orb>, i: nat,
                     ghost killed: seq<Enemy>, ghost orbs0: seq<Orb>)
    returns (bs': seq<Bullet>, es': seq<Enemy>, os': seq<Orb>, i': int, ghost killed': seq<Enemy>)
    requires i < |bs|
    requires os == orbs0 + Drops(killed)
    ensures 0 <= i' + 1 <= |bs'|
    ensures |bs'| - (i' + 1) == |bs| - i - 1
    ensures Turns(Outcome(bs'[..i' + 1], es', killed'), bs'[i' + 1..])
         == Turns(Outcome(bs[..i], es, killed), bs[i..])
    ensures os' == orbs0 + Drops(killed')
  {
    var j := ScanEnemies(bs[i], es);
    if j != -1 {
      MapAppend(OrbAt, killed, [es[j]]);
      killed' := killed + [es[j]];
      bs', os', es' := bs[..i] + bs[i + 1..], os + [OrbAt(es[j])], es[..j] + es[j + 1..];
      HitStep(bs, es, killed, i, j, bs', es', killed');
      i' := i - 1;
    } else {
      MissStep(bs, es, killed, i);
      bs', es', os', killed' := bs, es, os, killed;
      i' := i;
    }
  }

  /** `updateGame`'s collision loop: each bullet takes its turn, in list order,
      against the enemies still present. It computes exactly the collision
      sub-step, with its orbs appended to the orb list. */
  method CollideLoop(bullets: seq<Bullet>, enemies: seq<Enemy>, orbs: seq<Orb>)
    returns (bs: seq<Bullet>, es: seq<Enemy>, os: seq<Orb>)
    ensures bs == Collide(bullets, enemies).bullets
    ensures es == Collide(bullets, enemies).enemies
    ensures os == orbs + Drops(Collide(bullets, enemies).killed)
  {
    bs := bullets;
    es := enemies;
    os := orbs;
    var i: int := 0;
    ghost var killed: seq<Enemy> := [];
    assert bs[..0] == [] && bs[0..] == bs;
    while i < |bs|
      invariant 0 <= i <= |bs|
      invariant Turns(Outcome(bs[..i], es, killed), bs[i..]) == Collide(bullets, enemies)
      invariant os == orbs + Drops(killed)
      decreases |bs| - i
    {
      bs, es, os, i, killed := CollideTurn(bs, es, os, i, killed, orbs);
      i := i + 1;
    }
    assert bs[..i] == bs && bs[i..] == [];
  }
}

=== FILE: entities.dfy ===
/** The game's records and fixed settings: the ship, bullets, enemies and
    experience orbs, plus the map of held keys that input events maintain. */
module Entities {
  import opened Geometry

  // Fixed game settings.
  const SpaceshipSize: real := 30.0
  const SpaceshipSpeed: real := 5.0
  const BulletSpeed: real := 7.0
  const EnemySpeed: real := 3.0
  const EnemySpawnInterval: nat := 2000   // milliseconds between enemy spawns
  const BulletShootInterval: nat := 500   // milliseconds between volleys
  const OrbRadius: real := 5.0
  const XpBoostThreshold: nat := 5

  // Every volley bullet is this size.
  const BulletWidth: real := 5.0
  const BulletHeight: real := 10.0
  // Horizontal distance between neighbouring bullets of one volley.
  const BulletSpacing: real := 10.0

  /** The player's ship: a box plus the experience it has collected and the
      level that experience has earned. */
  datatype Ship = Ship(x: real, y: real, width: real, height: real, xp: nat, level: nat)
  {
    function Box(): Box { Geometry.Box(x, y, width, height) }
  }

  datatype Bullet = Bullet(x: real, y: real, width: real, height: real)
  {
    function Box(): Box { Geometry.Box(x, y, width, height) }
  }

  datatype Enemy = Enemy(x: real, y: real, width: real, height: real)
  {
    function Box(): Box { Geometry.Box(x, y, width, height) }
  }

  /** An experience orb, drawn as a circle; collisions treat it as the square
      of side 2 * radius centred on (x, y). */
  datatype Orb = Orb(x: real, y: real, radius: real)
  {
    function Box(): Box { Geometry.Box(x - radius, y - radius, 2.0 * radius, 2.0 * radius) }
  }

  /** Held keys, keyed by the browser's key name. A key that was never
      pressed is absent, which the game reads as "not held". */
  type KeyMap = map<string, bool>

  const ArrowLeft: string := "ArrowLeft"
  const ArrowRight: string := "ArrowRight"
  const ArrowUp: string := "ArrowUp"
  const ArrowDown: string := "ArrowDown"

  predicate Held(keys: KeyMap, k: string)
  {
    k in keys && keys[k]
  }

  /** A key-down event marks its key held and leaves every other key alone. */
  function KeyDown(keys: KeyMap, k: string): (r: KeyMap)
    ensures Held(r, k)
    ensures forall k' :: k' != k ==> (Held(r, k') <==> Held(keys, k'))
  {
    keys[k := true]
  }

  /** A key-up event marks its key released and leaves every other key alone. */
  function KeyUp(keys: KeyMap, k: string): (r: KeyMap)
    ensures !Held(r, k)
    ensures forall k' :: k' != k ==> (Held(r, k') <==> Held(keys, k'))
  {
    keys[k := false]
  }
}

=== FILE: game.dfy ===
/** The whole simulation as an explicit state: the ship, the bullet, enemy
    and orb lists, and the running flag. A frame, a volley, an enemy spawn and
    a new run are pure functions of that state and of the canvas size W x H.
    Host scheduling (timers, animation frames, key listeners) becomes a
    sequence of events replayed by Run. */
module Game {
  import opened Seqs
  import opened Entities
  import opened Movement
  import opened Pickup
  import opened Collision
  import opened Spawner

  datatype State = State(
    ship: Ship,
    bullets: seq<Bullet>,
    enemies: seq<Enemy>,
    orbs: seq<Orb>,
    running: bool)

  /** Where a run puts the ship: horizontally centred, its bottom edge ten
      units above the canvas bottom. */
  function StartShip(ship: Ship, W: real, H: real): (r: Ship)
    ensures r.xp == 0 && r.level == 1
    ensures r.width == ship.width && r.height == ship.height
    ensures r.x + SpaceshipSize / 2.0 == W / 2.0
    ensures H - (r.y + SpaceshipSize) == 10.0
  {
    ship.(x := W / 2.0 - SpaceshipSize / 2.0, y := H - SpaceshipSize - 10.0, xp := 0, level := 1)
  }

  /** The state when the page loads, before any run. */
  function Initial(W: real, H: real): (s: State)
    ensures !s.running
    ensures s.bullets == [] && s.enemies == [] && s.orbs == []
    ensures s.ship.xp == 0 && s.ship.level == 1
    ensures s.ship.width == SpaceshipSize && s.ship.height == SpaceshipSize
    ensures s.ship.x + SpaceshipSize / 2.0 == W / 2.0
    ensures H - (s.ship.y + SpaceshipSize) == 10.0
  {
    State(StartShip(Ship(0.0, 0.0, SpaceshipSize, SpaceshipSize, 0, 1), W, H), [], [], [], false)
  }

  /** Starting a run: the flag goes up, the ship goes back to its start
      position with no experience at level 1, and all three lists are
      emptied, whatever the previous run left behind. */
  function StartGame(s: State, W: real, H: real): (r: State)
    ensures r.running
    ensures r.bullets == [] && r.enemies == [] && r.orbs == []
    ensures r.ship.xp == 0 && r.ship.level == 1
    ensures LevelInvariant(r.ship)
    ensures r.ship.width == s.ship.width && r.ship.height == s.ship.height
    ensures r.ship.x + SpaceshipSize / 2.0 == W / 2.0
    ensures H - (r.ship.y + SpaceshipSize) == 10.0
    ensures s.ship.width == SpaceshipSize && s.ship.height == SpaceshipSize && W > 20.0 && H > 35.0
            ==> InBand(r.ship, W, H)
  {
    State(StartShip(s.ship, W, H), [], [], [], true)
  }

  // ---- Bullet and enemy motion ----

  function Rise(b: Bullet): Bullet { b.(y := b.y - BulletSpeed) }
  predicate BulletKept(b: Bullet) { b.y >= 0.0 }

  function Fall(e: Enemy): Enemy { e.(y := e.y + EnemySpeed) }
  function EnemyKept(H: real): Enemy -> bool { (e: Enemy) => e.y <= H }

  /** The bullet sub-step: every bullet rises by BulletSpeed and the ones now
      above the top edge are dropped; the rest keep their order. */
  function MoveBullets(bs: seq<Bullet>): (r: seq<Bullet>)
    ensures forall b :: b in r <==> b.y >= 0.0 && b.(y := b.y + BulletSpeed) in bs
  {
    RisenMembers(bs);
    FilterMembers(BulletKept, Map(Rise, bs));
    Filter(BulletKept, Map(Rise, bs))
  }

  lemma RisenMembers(bs: seq<Bullet>)
    ensures forall b :: b in Map(Rise, bs) <==> b.(y := b.y + BulletSpeed) in bs
  {
    var m := Map(Rise, bs);
    forall b
      ensures b in m <==> b.(y := b.y + BulletSpeed) in bs
    {
      if b in m {
        var i :| 0 <= i < |m| && m[i] == b;
        assert bs[i] == b.(y := b.y + BulletSpeed);
      }
      if b.(y := b.y + BulletSpeed) in bs {
        var i :| 0 <= i < |bs| && bs[i] == b.(y := b.y + BulletSpeed);
        assert m[i] == b;
      }
    }
  }

  /** The enemy sub-step: every enemy falls by EnemySpeed and the ones now
      below the bottom edge are dropped; the rest keep their order. */
  function MoveEnemies(es: seq<Enemy>, H: real): (r: seq<Enemy>)
    ensures forall e :: e in r <==> e.y <= H && e.(y := e.y - EnemySpeed) in es
  {
    FallenMembers(es);
    FilterMembers(EnemyKept(H), Map(Fall, es));
    Filter(EnemyKept(H), Map(Fall, es))
  }

  lemma FallenMembers(es: seq<Enemy>)
    ensures forall e :: e in Map(Fall, es) <==> e.(y := e.y - EnemySpeed) in es
  {
    var m := Map(Fall, es);
    forall e
      ensures e in m <==> e.(y := e.y - EnemySpeed) in es
    {
      if e in m {
        var i :| 0 <= i < |m| && m[i] == e;
        assert es[i] == e.(y := e.y - EnemySpeed);
      }
      if e.(y := e.y - EnemySpeed) in es {
        var i :| 0 <= i < |es| && es[i] == e.(y := e.y - EnemySpeed);
        assert m[i] == e;
      }
    }
  }

  /** `updateGame`'s bullet loop computes the bullet sub-step. */
  method MoveBulletsLoop(bs: seq<Bullet>) returns (r: seq<Bullet>)
    ensures r == MoveBullets(bs)
  {
    r := SpliceFilter(bs, Rise, BulletKept);
  }

  /** `updateGame`'s enemy loop computes the enemy sub-step. */
  method MoveEnemiesLoop(es: seq<Enemy>, H: real) returns (r: seq<Enemy>)
    ensures r == MoveEnemies(es, H)
  {
    r := SpliceFilter(es, Fall, EnemyKept(H));
  }

  // ---- One frame ----

  /** One frame of the simulation, its five sub-steps in order: move the
      ship, move bullets, move enemies, pick up orbs, resolve collisions.
      The orbs dropped by this frame's collisions go to the end of the list. */
  function UpdateGame(s: State, keys: KeyMap, W: real, H: real): (r: State)
    ensures r.running == s.running
    ensures forall b :: b in r.bullets ==> b.y >= 0.0
    ensures forall e :: e in r.enemies ==> e.y <= H
    ensures r.ship.xp >= s.ship.xp && r.ship.level >= s.ship.level
    ensures r.ship.width == s.ship.width && r.ship.height == s.ship.height
    ensures InBand(s.ship, W, H) ==> InBand(r.ship, W, H)
    ensures LevelInvariant(s.ship) ==> LevelInvariant(r.ship)
  {
    var ship := MoveShip(s.ship, keys, W, H);
    var bullets := MoveBullets(s.bullets);
    var enemies := MoveEnemies(s.enemies, H);
    var picked := CollectOrbs(ship, s.orbs);
    var hit := Collide(bullets, enemies);
    CollideSeparates(bullets, enemies);
    assert forall e :: e in hit.enemies ==> e in multiset(enemies);
    State(picked.ship, hit.bullets, hit.enemies, picked.orbs + Drops(hit.killed), s.running)
  }

  /** Orbs dropped in a frame are not collected in that frame: pickup runs
      before the collisions that drop them. The experience gained is the
      number of orbs present at the start of the frame that the moved ship
      touches, the untouched ones stay, and every new orb is in the list. */
  lemma FrameOrbsAccounting(s: State, keys: KeyMap, W: real, H: real)
    ensures var ship := MoveShip(s.ship, keys, W, H);
            var hit := Collide(MoveBullets(s.bullets), MoveEnemies(s.enemies, H));
            var r := UpdateGame(s, keys, W, H);
            && r.ship.xp - s.ship.xp == |Filter(Touching(ship), s.orbs)|
            && |r.orbs| == |s.orbs| - (r.ship.xp - s.ship.xp) + |hit.killed|
            && (forall o :: o in s.orbs && !Touches(ship, o) ==> o in r.orbs)
            && (forall o :: o in Drops(hit.killed) ==> o in r.orbs)
  {
  }

  /** In a frame, the bullets spent, the enemies destroyed and the orbs
      dropped are equally many, and every enemy that moved either survives or
      is destroyed. */
  lemma FrameKillAccounting(s: State, keys: KeyMap, W: real, H: real)
    ensures var bullets := MoveBullets(s.bullets);
            var enemies := MoveEnemies(s.enemies, H);
            var hit := Collide(bullets, enemies);
            var r := UpdateGame(s, keys, W, H);
            && |bullets| - |r.bullets| == |hit.killed|
            && |enemies| - |r.enemies| == |hit.killed|
            && |Drops(hit.killed)| == |hit.killed|
            && multiset(r.enemies) + multiset(hit.killed) == multiset(enemies)
  {
    var enemies := MoveEnemies(s.enemies, H);
    var hit := Collide(MoveBullets(s.bullets), enemies);
    assert |multiset(hit.enemies)| + |multiset(hit.killed)| == |multiset(enemies)|;
  }

  // ---- Timers ----

  /** A bullet-timer tick: while running, the ship's volley is appended to
      the bullet list; otherwise nothing happens. */
  function ShootBullet(s: State): (r: State)
    ensures !s.running ==> r == s
    ensures s.running ==> |r.bullets| == |s.bullets| + s.ship.level
    ensures s.running ==> r.bullets[|s.bullets|..] == Volley(s.ship)
    ensures r.bullets[..|s.bullets|] == s.bullets
    ensures r.ship == s.ship && r.enemies == s.enemies && r.orbs == s.orbs && r.running == s.running
  {
    if !s.running then s else s.(bullets := s.bullets + Volley(s.ship))
  }

  /** An enemy-timer tick with random number `rnd`: while running, one new
      enemy joins the end of the enemy list; otherwise nothing happens. */
  function SpawnEnemy(s: State, rnd: real, W: real): (r: State)
    requires 0.0 <= rnd < 1.0
    ensures !s.running ==> r == s
    ensures s.running ==> |r.enemies| == |s.enemies| + 1 && r.enemies[|s.enemies|].y == 0.0
    ensures s.running && W > SpaceshipSize ==> 0.0 <= r.enemies[|s.enemies|].x < W - SpaceshipSize
    ensures s.running ==> r.enemies[|s.enemies|] == NewEnemy(rnd, W)
    ensures r.enemies[..|s.enemies|] == s.enemies
    ensures r.ship == s.ship && r.bullets == s.bullets && r.orbs == s.orbs && r.running == s.running
  {
    if !s.running then s else s.(enemies := s.enemies + [NewEnemy(rnd, W)])
  }

  // ---- Runs of events ----

  /** What the host can do to the game between two observations. Repeated
      timer ticks, however many timers are armed, are just repeated events.
      Play is the play button: `startGame` resets the state and then runs
      one frame straight away. */
  datatype Event =
    | KeyPress(key: string)
    | KeyRelease(key: string)
    | Frame
    | ShootTick
    | SpawnTick(rnd: real)
    | Play

  datatype World = World(game: State, keys: KeyMap)

  /** The random number of a spawn tick lies in [0, 1). */
  predicate Admissible(ev: Event)
  {
    ev.SpawnTick? ==> 0.0 <= ev.rnd < 1.0
  }

  function Apply(w: World, ev: Event, W: real, H: real): World
    requires Admissible(ev)
  {
    match ev
    case KeyPress(k) => w.(keys := KeyDown(w.keys, k))
    case KeyRelease(k) => w.(keys := KeyUp(w.keys, k))
    case Frame => w.(game := UpdateGame(w.game, w.keys, W, H))
    case ShootTick => w.(game := ShootBullet(w.game))
    case SpawnTick(rnd) => w.(game := SpawnEnemy(w.game, rnd, W))
    case Play => w.(game := UpdateGame(StartGame(w.game, W, H), w.keys, W, H))
  }

  function Run(w: World, evs: seq<Event>, W: real, H: real): World
    requires forall i :: 0 <= i < |evs| ==> Admissible(evs[i])
    decreases |evs|
  {
    if evs == [] then w else Run(Apply(w, evs[0], W, H), evs[1..], W, H)
  }

  /** What every reachable state satisfies: level and experience agree, the
      ship keeps its size, and it stays within one step of the canvas. */
  predicate Valid(s: State, W: real, H: real)
  {
    && LevelInvariant(s.ship)
    && s.ship.width == SpaceshipSize && s.ship.height == SpaceshipSize
    && InBand(s.ship, W, H)
  }

  lemma InitialValid(W: real, H: real)
    requires W > 20.0 && H > 35.0
    ensures Valid(Initial(W, H), W, H)
  {
  }

  /** Every event keeps a state valid. */
  lemma ApplyValid(w: World, ev: Event, W: real, H: real)
    requires W > 20.0 && H > 35.0
    requires Admissible(ev)
    requires Valid(w.game, W, H)
    ensures Valid(Apply(w, ev, W, H).game, W, H)
  {
  }

  /** Validity holds after any run of events, so after every frame of every
      run the level is one more than experience divided by the threshold. */
  lemma {:induction false} RunValid(w: World, evs: seq<Event>, W: real, H: real)
    requires W > 20.0 && H > 35.0
    requires forall i :: 0 <= i < |evs| ==> Admissible(evs[i])
    requires Valid(w.game, W, H)
    ensures Valid(Run(w, evs, W, H).game, W, H)
    decreases |evs|
  {
    if evs != [] {
      ApplyValid(w, evs[0], W, H);
      RunValid(Apply(w, evs[0], W, H), evs[1..], W, H);
    }
  }

  /** Whatever the canvas, after any run of events from a ship whose level
      agrees with its experience, the level is still one more than experience
      divided by the threshold. */
  lemma {:induction false} RunLevelInvariant(w: World, evs: seq<Event>, W: real, H: real)
    requires forall i :: 0 <= i < |evs| ==> Admissible(evs[i])
    requires LevelInvariant(w.game.ship)
    ensures LevelInvariant(Run(w, evs, W, H).game.ship)
    decreases |evs|
  {
    if evs != [] {
      RunLevelInvariant(Apply(w, evs[0], W, H), evs[1..], W, H);
    }
  }

  /** Within a run (no Play event) neither level nor experience ever goes
      down. */
  lemma {:induction false} RunLevelMonotone(w: World, evs: seq<Event>, W: real, H: real)
    requires forall i :: 0 <= i < |evs| ==> Admissible(evs[i]) && !evs[i].Play?
    ensures Run(w, evs, W, H).game.ship.level >= w.game.ship.level
    ensures Run(w, evs, W, H).game.ship.xp >= w.game.ship.xp
    decreases |evs|
  {
    if evs != [] {
      RunLevelMonotone(Apply(w, evs[0], W, H), evs[1..], W, H);
    }
  }

  /** Nothing ever clears the running flag: once a run has started the game
      stays running. */
  lemma {:induction false} RunStaysRunning(w: World, evs: seq<Event>, W: real, H: real)
    requires forall i :: 0 <= i < |evs| ==> Admissible(evs[i])
    requires w.game.running
    ensures Run(w, evs, W, H).game.running
    decreases |evs|
  {
    if evs != [] {
      RunStaysRunning(Apply(w, evs[0], W, H), evs[1..], W, H);
    }
  }

  // ---- Worked scenarios ----

  /** A ship at (100, 100) touching an orb at (110, 110) collects it: one
      experience point, no level-up, the orb is gone. */
  lemma PickupScenario()
    ensures var r := CollectOrbs(Ship(100.0, 100.0, 30.0, 30.0, 0, 1), [Orb(110.0, 110.0, 5.0)]);
            r.ship.xp == 1 && r.ship.level == 1 && r.orbs == []
  {
    var ship := Ship(100.0, 100.0, 30.0, 30.0, 0, 1);
    assert Touches(ship, Orb(110.0, 110.0, 5.0));
    assert Filter(Not(Touching(ship)), [Orb(110.0, 110.0, 5.0)]) == [];
  }

  /** The fifth experience point raises level 1 to level 2. */
  lemma LevelUpScenario()
    ensures var r := CollectOrbs(Ship(100.0, 100.0, 30.0, 30.0, 4, 1), [Orb(110.0, 110.0, 5.0)]);
            r.ship.xp == 5 && r.ship.level == 2
  {
    var ship := Ship(100.0, 100.0, 30.0, 30.0, 4, 1);
    assert Touches(ship, Orb(110.0, 110.0, 5.0));
    assert Filter(Not(Touching(ship)), [Orb(110.0, 110.0, 5.0)]) == [];
  }

  /** A 5x10 bullet at (50, 50) and a 30x30 enemy at (48, 55) destroy each
      other and leave an orb at (63, 70). */
  lemma CollisionScenario()
    ensures var r := Collide([Bullet(50.0, 50.0, 5.0, 10.0)], [Enemy(48.0, 55.0, 30.0, 30.0)]);
            r.bullets == [] && r.enemies == [] && Drops(r.killed) == [Orb(63.0, 70.0, 5.0)]
  {
    var b := Bullet(50.0, 50.0, 5.0, 10.0);
    var e := Enemy(48.0, 55.0, 30.0, 30.0);
    assert Hits(b, e);
    assert [b][1..] == [];
  }
}

=== FILE: geometry.dfy ===
/** Axis-aligned boxes and the strict overlap test every collision in the game
    uses (ship against orb, bullet against enemy). */
module Geometry {

  /** A rectangle with its top-left corner at (x, y); y grows downwards. */
  datatype Box = Box(x: real, y: real, w: real, h: real)

  /** The open-interval overlap test: two boxes overlap when each starts
      strictly before the other ends, on both axes. Boxes that only share an
      edge do not overlap. */
  predicate Overlaps(a: Box, b: Box)
  {
    && a.x < b.x + b.w
    && a.x + a.w > b.x
    && a.y < b.y + b.h
    && a.y + a.h > b.y
  }

  /** The point (px, py) lies in the open interior of `a`. */
  predicate Inside(a: Box, px: real, py: real)
  {
    a.x < px < a.x + a.w && a.y < py < a.y + a.h
  }

  function Max(a: real, b: real): real { if a < b then b else a }
  function Min(a: real, b: real): real { if a < b then a else b }

  /** For boxes of positive size, the four-comparison test means exactly that
      the two open rectangles share a point: touching edges or corners is not
      enough. */
  lemma OverlapsIffSharedInterior(a: Box, b: Box)
    requires a.w > 0.0 && a.h > 0.0 && b.w > 0.0 && b.h > 0.0
    ensures Overlaps(a, b) <==> exists px, py :: Inside(a, px, py) && Inside(b, px, py)
  {
    if Overlaps(a, b) {
      var px := (Max(a.x, b.x) + Min(a.x + a.w, b.x + b.w)) / 2.0;
      var py := (Max(a.y, b.y) + Min(a.y + a.h, b.y + b.h)) / 2.0;
      assert Inside(a, px, py) && Inside(b, px, py);
    }
  }
}

=== FILE: movement.dfy ===
/** Ship movement, the first sub-step of a frame. Each arrow key moves the ship
    by the fixed speed when its bound check passes; the check is made BEFORE
    the move, so the ship is not clamped to the canvas and can end up past an
    edge by less than one step. */
module Movement {
  import opened Entities

  /** The band the ship's corner stays in along one axis: never a full step
      past the low edge (0) or past the high edge (`limit`, which is the
      canvas extent minus the ship's size). */
  predicate InAxisBand(p: real, limit: real)
  {
    -SpaceshipSpeed < p < limit + SpaceshipSpeed
  }

  /** The ship's corner is within the band on both axes of a W x H canvas. */
  predicate InBand(ship: Ship, W: real, H: real)
  {
    InAxisBand(ship.x, W - ship.width) && InAxisBand(ship.y, H - ship.height)
  }

  /** One axis of the movement step. The decreasing key (left, up) is handled
      first and moves only while `p > 0`; the increasing key (right, down) is
      handled next, against the possibly already moved position, and moves
      only while that position is below `limit`. */
  function AxisStep(p: real, dec: bool, inc: bool, limit: real): (q: real)
    // the net move is at most one step either way
    ensures q == p - SpaceshipSpeed || q == p || q == p + SpaceshipSpeed
    // a move happens only for a held key whose check passes
    ensures q == p - SpaceshipSpeed ==> dec && p > 0.0
    ensures q == p + SpaceshipSpeed ==> inc && p < limit
    // a lone held key whose check passes moves by exactly one step
    ensures dec && !inc && p > 0.0 ==> q == p - SpaceshipSpeed
    ensures inc && !dec && p < limit ==> q == p + SpaceshipSpeed
    ensures !dec && !inc ==> q == p
    // a lone held key whose check fails does not move
    ensures dec && !inc && p <= 0.0 ==> q == p
    ensures inc && !dec && p >= limit ==> q == p
    // both keys held: the increasing key's check sees the already moved position
    ensures dec && inc && p > 0.0 && p - SpaceshipSpeed < limit ==> q == p
    ensures dec && inc && p > 0.0 && p - SpaceshipSpeed >= limit ==> q == p - SpaceshipSpeed
    ensures dec && inc && p <= 0.0 && p < limit ==> q == p + SpaceshipSpeed
    ensures dec && inc && p <= 0.0 && p >= limit ==> q == p
    // the overshoot band is preserved
    ensures InAxisBand(p, limit) ==> InAxisBand(q, limit)
  {
    var p1 := if dec && p > 0.0 then p - SpaceshipSpeed else p;
    if inc && p1 < limit then p1 + SpaceshipSpeed else p1
  }

  /** The movement sub-step of a frame on a W x H canvas. */
  function MoveShip(ship: Ship, keys: KeyMap, W: real, H: real): (r: Ship)
    ensures r.width == ship.width && r.height == ship.height
    ensures r.xp == ship.xp && r.level == ship.level
    // each axis moves by one step either way or not at all
    ensures r.x == ship.x - SpaceshipSpeed || r.x == ship.x || r.x == ship.x + SpaceshipSpeed
    ensures r.y == ship.y - SpaceshipSpeed || r.y == ship.y || r.y == ship.y + SpaceshipSpeed
    // a move happens only when its bound check passes
    ensures r.x < ship.x ==> ship.x > 0.0
    ensures r.x > ship.x ==> ship.x < W - ship.width
    ensures r.y < ship.y ==> ship.y > 0.0
    ensures r.y > ship.y ==> ship.y < H - ship.height
    // a lone held key whose bound check fails does not move the ship
    ensures Held(keys, ArrowLeft) && !Held(keys, ArrowRight) && ship.x <= 0.0
            ==> r.x == ship.x
    ensures Held(keys, ArrowRight) && !Held(keys, ArrowLeft) && ship.x >= W - ship.width
            ==> r.x == ship.x
    ensures Held(keys, ArrowUp) && !Held(keys, ArrowDown) && ship.y <= 0.0
            ==> r.y == ship.y
    ensures Held(keys, ArrowDown) && !Held(keys, ArrowUp) && ship.y >= H - ship.height
            ==> r.y == ship.y
    ensures !Held(keys, ArrowLeft) && !Held(keys, ArrowRight) ==> r.x == ship.x
    ensures !Held(keys, ArrowUp) && !Held(keys, ArrowDown) ==> r.y == ship.y
    // left and up decrease a coordinate, right and down increase it
    ensures r.x < ship.x ==> Held(keys, ArrowLeft)
    ensures r.x > ship.x ==> Held(keys, ArrowRight)
    ensures r.y < ship.y ==> Held(keys, ArrowUp)
    ensures r.y > ship.y ==> Held(keys, ArrowDown)
    // a lone held key whose bound check passes moves one step its way
    ensures Held(keys, ArrowLeft) && !Held(keys, ArrowRight) && ship.x > 0.0
            ==> r.x == ship.x - SpaceshipSpeed
    ensures Held(keys, ArrowRight) && !Held(keys, ArrowLeft) && ship.x < W - ship.width
            ==> r.x == ship.x + SpaceshipSpeed
    ensures Held(keys, ArrowUp) && !Held(keys, ArrowDown) && ship.y > 0.0
            ==> r.y == ship.y - SpaceshipSpeed
    ensures Held(keys, ArrowDown) && !Held(keys, ArrowUp) && ship.y < H - ship.height
            ==> r.y == ship.y + SpaceshipSpeed
    ensures InBand(ship, W, H) ==> InBand(r, W, H)
  {
    ship.(x := AxisStep(ship.x, Held(keys, ArrowLeft), Held(keys, ArrowRight), W - ship.width),
          y := AxisStep(ship.y, Held(keys, ArrowUp), Held(keys, ArrowDown), H - ship.height))
  }

  /** The movement is not a clamp: a ship 3 units from the left edge with the
      left key held ends up 2 units past that edge. */
  lemma MoveOvershootsEdge(W: real, H: real)
    requires W > 100.0 && H > 100.0
    ensures MoveShip(Ship(3.0, 50.0, SpaceshipSize, SpaceshipSize, 0, 1),
                     map[ArrowLeft := true], W, H).x == -2.0
  {
  }
}

=== FILE: pickup.dfy ===
/** Orb pickup, the fourth sub-step of a frame: every orb whose square the
    ship's box overlaps is removed and earns one experience point, and every
    XpBoostThreshold-th point raises the level by one. */
module Pickup {
  import opened Seqs
  import opened Geometry
  import opened Entities

  /** The ship's box strictly overlaps the orb's square. */
  predicate Touches(ship: Ship, o: Orb)
  {
    Overlaps(ship.Box(), o.Box())
  }

  function Touching(ship: Ship): Orb -> bool
  {
    o => Touches(ship, o)
  }

  /** Level and experience agree: one level to start with and one more per
      XpBoostThreshold points. A reset establishes it. */
  predicate LevelInvariant(ship: Ship)
  {
    ship.level == 1 + ship.xp / XpBoostThreshold
  }

  /** The number of level-ups earned while experience climbs one point at a
      time from `xp` to `xp + n`: one for each multiple of the threshold
      reached on the way. */
  function LevelUps(xp: nat, n: nat): nat
  {
    if n == 0 then 0
    else LevelUps(xp, n - 1) + (if (xp + n) % XpBoostThreshold == 0 then 1 else 0)
  }

  /** Reaching `m` from `m - 1` crosses a threshold exactly when `m` is a
      multiple of it. */
  lemma ThresholdStep(m: nat)
    requires m > 0
    ensures m / XpBoostThreshold - (m - 1) / XpBoostThreshold
         == if m % XpBoostThreshold == 0 then 1 else 0
  {
  }

  /** The level-ups counted one point at a time are the difference of the
      levels the two experience values stand for. */
  lemma {:induction false} LevelUpsClosedForm(xp: nat, n: nat)
    ensures LevelUps(xp, n) == (xp + n) / XpBoostThreshold - xp / XpBoostThreshold
    decreases n
  {
    if n > 0 {
      LevelUpsClosedForm(xp, n - 1);
      ThresholdStep(xp + n);
    }
  }

  datatype Collected = Collected(ship: Ship, orbs: seq<Orb>)

  /** The pickup sub-step: the orbs the ship touches are gone, the others
      stay in order, and experience and level grow accordingly. */
  function CollectOrbs(ship: Ship, orbs: seq<Orb>): (r: Collected)
    ensures forall o :: o in r.orbs <==> o in orbs && !Touches(ship, o)
    ensures r.ship.xp == ship.xp + |Filter(Touching(ship), orbs)|
    ensures r.ship.xp - ship.xp == |orbs| - |r.orbs|
    ensures r.ship.level == ship.level + (r.ship.xp / XpBoostThreshold - ship.xp / XpBoostThreshold)
    ensures r.ship.Box() == ship.Box()
    ensures LevelInvariant(ship) ==> LevelInvariant(r.ship)
  {
    var kept := Filter(Not(Touching(ship)), orbs);
    var n := |orbs| - |kept|;
    FilterMembers(Not(Touching(ship)), orbs);
    FilterPartition(Touching(ship), orbs);
    LevelUpsClosedForm(ship.xp, n);
    Collected(ship.(xp := ship.xp + n, level := ship.level + LevelUps(ship.xp, n)), kept)
  }

  /** Where `updateGame`'s orb pickup loop stands after `k` orbs of the
      input have been tested: the list it works on holds, before index `i`,
      the untouched orbs among those `k`, and after it the orbs not yet
      tested; the ship has
      earned one point per orb removed and the level-ups that came with them. */
  ghost predicate PickupProgress(ship: Ship, orbs: seq<Orb>, s: Ship, os: seq<Orb>, i: int, k: int)
  {
    && 0 <= i <= |os|
    && i <= k <= |orbs|
    && os[..i] == Filter(Not(Touching(ship)), orbs[..k])
    && os[i..] == orbs[k..]
    && s.Box() == ship.Box()
    && s.xp == ship.xp + (k - i)
    && s.level == ship.level + LevelUps(ship.xp, k - i)
  }

  /** One pass of the body of `updateGame`'s orb pickup loop at index `i`:
      on a hit add one experience point, splice the orb out and step the index back, and raise
      the level when experience reaches a multiple of the threshold. The index
      the loop continues from is `i' + 1`, with one more input orb tested.
      `ship0`, `orbs0` and `k` describe the progress, for the proof only. */
  method PickupTurn(s: Ship, os: seq<Orb>, i: nat,
                    ghost ship0: Ship, ghost orbs0: seq<Orb>, ghost k: nat)
    returns (s': Ship, os': seq<Orb>, i': int)
    requires i < |os|
    requires PickupProgress(ship0, orbs0, s, os, i, k)
    ensures PickupProgress(ship0, orbs0, s', os', i' + 1, k + 1)
    ensures |os'| - (i' + 1) == |os| - i - 1
  {
    ghost var keep := Not(Touching(ship0));
    ghost var done := os[..i];
    ghost var rest := os[i + 1..];
    FilterSnoc(keep, orbs0, k);
    assert os[i] == orbs0[k];
    assert rest == orbs0[k + 1..] by { assert os[i..] == [os[i]] + rest; }
    s', os', i' := s, os, i;
    if Touches(s', os'[i']) {
      assert !keep(orbs0[k]);
      s' := s'.(xp := s'.xp + 1);
      os' := os'[..i'] + os'[i' + 1..];
      assert os' == done + rest;
      i' := i' - 1;
      if s'.xp % XpBoostThreshold == 0 {
        s' := s'.(level := s'.level + 1);
      }
    } else {
      assert keep(orbs0[k]);
      assert os' == done + [orbs0[k]] + rest;
    }
  }

  /** `updateGame`'s orb pickup loop: each orb in turn is tested against the
      ship and removed on a hit, with experience and level raised one point at a
      time. It computes exactly the pickup sub-step. */
  method CollectOrbsLoop(ship: Ship, orbs: seq<Orb>) returns (ship': Ship, orbs': seq<Orb>)
    ensures Collected(ship', orbs') == CollectOrbs(ship, orbs)
  {
    ship' := ship;
    orbs' := orbs;
    var i: int := 0;
    ghost var k := 0;
    while i < |orbs'|
      invariant PickupProgress(ship, orbs, ship', orbs', i, k)
      decreases |orbs'| - i
    {
      ship', orbs', i := PickupTurn(ship', orbs', i, ship, orbs, k);
      i := i + 1;
      k := k + 1;
    }
    assert orbs[..k] == orbs;
    assert orbs' == Filter(Not(Touching(ship)), orbs);
    assert k - i == |orbs| - |orbs'|;
    assert ship' == ship.(xp := ship.xp + (k - i), level := ship.level + LevelUps(ship.xp, k - i));
  }
}

=== FILE: seqs.dfy ===
/** Sequence combinators the simulation's list updates are specified with, and
    the in-place "splice and step back" loop the game uses to prune a list. */
module Seqs {

  /** The list with position `j` taken out, the rest kept in order. */
  function RemoveAt<T>(s: seq<T>, j: nat): (r: seq<T>)
    requires j < |s|
    ensures |r| == |s| - 1
    ensures multiset(r) + multiset{s[j]} == multiset(s)
  {
    assert s == s[..j] + [s[j]] + s[j + 1..];
    s[..j] + s[j + 1..]
  }

  /** Applies `f` to every element, keeping positions. */
  function Map<T, U>(f: T -> U, s: seq<T>): (r: seq<U>)
    ensures |r| == |s|
    ensures forall i :: 0 <= i < |s| ==> r[i] == f(s[i])
  {
    seq(|s|, i requires 0 <= i < |s| => f(s[i]))
  }

  /** The elements of `s` that satisfy `keep`, in their original order. */
  function Filter<T>(keep: T -> bool, s: seq<T>): (r: seq<T>)
    ensures |r| <= |s|
  {
    if s == [] then []
    else (if keep(s[0]) then [s[0]] else []) + Filter(keep, s[1..])
  }

  /** Filtering keeps exactly the elements that pass: everything in the
      result passes and came from the input, and every passing input element
      is in the result. */
  lemma {:induction false} FilterMembers<T>(keep: T -> bool, s: seq<T>)
    ensures forall x :: x in Filter(keep, s) <==> x in s && keep(x)
    decreases |s|
  {
    if s != [] {
      FilterMembers(keep, s[1..]);
      assert s == [s[0]] + s[1..];
    }
  }

  /** The complement of a predicate. */
  function Not<T>(p: T -> bool): T -> bool
  {
    x => !p(x)
  }

  lemma MapAppend<T, U>(f: T -> U, a: seq<T>, b: seq<T>)
    ensures Map(f, a + b) == Map(f, a) + Map(f, b)
  {
  }

  /** Filtering distributes over concatenation, which is what lets a loop
      build the filtered list one element at a time. */
  lemma {:induction false} FilterAppend<T>(keep: T -> bool, a: seq<T>, b: seq<T>)
    ensures Filter(keep, a + b) == Filter(keep, a) + Filter(keep, b)
    decreases |a|
  {
    if a == [] {
      assert a + b == b;
    } else {
      var head := if keep(a[0]) then [a[0]] else [];
      assert (a + b)[0] == a[0];
      assert (a + b)[1..] == a[1..] + b;
      assert Filter(keep, a + b) == head + Filter(keep, a[1..] + b);
      FilterAppend(keep, a[1..], b);
      assert Filter(keep, a) == head + Filter(keep, a[1..]);
    }
  }

  /** A predicate and its complement split a sequence: every element lands in
      exactly one of the two filtered lists. */
  lemma {:induction false} FilterPartition<T>(keep: T -> bool, s: seq<T>)
    ensures |Filter(keep, s)| + |Filter(Not(keep), s)| == |s|
    ensures multiset(Filter(keep, s)) + multiset(Filter(Not(keep), s)) == multiset(s)
    decreases |s|
  {
    if s != [] {
      FilterPartition(keep, s[1..]);
      assert s == [s[0]] + s[1..];
    }
  }

  /** One more element of the input extends the filtered prefix by at most
      that element. */
  lemma FilterSnoc<T>(keep: T -> bool, s: seq<T>, k: nat)
    requires k < |s|
    ensures Filter(keep, s[..k + 1]) == Filter(keep, s[..k]) + (if keep(s[k]) then [s[k]] else [])
  {
    assert s[..k + 1] == s[..k] + [s[k]];
    FilterAppend(keep, s[..k], [s[k]]);
    assert [s[k]][1..] == [];
  }

  /** One more element of the input extends the mapped and filtered prefix by
      at most that element's image. */
  lemma FilterStep<T>(keep: T -> bool, f: T -> T, s: seq<T>, k: nat)
    requires k < |s|
    ensures Filter(keep, Map(f, s[..k + 1]))
         == Filter(keep, Map(f, s[..k])) + (if keep(f(s[k])) then [f(s[k])] else [])
  {
    assert s[..k + 1] == s[..k] + [s[k]];
    MapAppend(f, s[..k], [s[k]]);
    assert Map(f, [s[k]]) == [f(s[k])];
    FilterAppend(keep, Map(f, s[..k]), [f(s[k])]);
    assert [f(s[k])][1..] == [];
  }

  /** The pruning loop `updateGame` runs over bullets and enemies, step by
      step: walk the list with index `i`, replace the element by `f` of it,
      and when the new element fails `keep` splice it out and step `i` back
      by one, so that the element that slid into its place is visited next.
      The result is the clean map-then-filter: every element is visited once,
      none is skipped, and order is kept. */
  method SpliceFilter<T>(s: seq<T>, f: T -> T, keep: T -> bool) returns (out: seq<T>)
    ensures out == Filter(keep, Map(f, s))
  {
    out := s;
    var i: int := 0;
    ghost var k := 0;
    while i < |out|
      invariant 0 <= i <= |out|
      invariant 0 <= k <= |s|
      invariant out[..i] == Filter(keep, Map(f, s[..k]))
      invariant out[i..] == s[k..]
      decreases |out| - i
    {
      ghost var done := out[..i];
      ghost var rest := out[i + 1..];
      ghost var x := f(out[i]);
      FilterStep(keep, f, s, k);
      assert rest == s[k + 1..] by { assert out[i..] == [out[i]] + rest; }
      out := out[i := f(out[i])];
      if !keep(out[i]) {
        out := out[..i] + out[i + 1..];
        assert out == done + rest;
        i := i - 1;
      } else {
        assert out == done + [x] + rest;
      }
      i := i + 1;
      k := k + 1;
    }
    assert s[..k] == s;
  }
}

=== FILE: spawner.dfy ===
/** The two timed producers: the bullet volley the ship fires and the enemy
    that appears at the top edge. The random number the enemy's position is
    drawn from is a parameter. */
module Spawner {
  import opened Entities

  /** Horizontal centre of a bullet or of the ship. */
  function BulletCentre(b: Bullet): real { b.x + b.width / 2.0 }
  function ShipCentre(ship: Ship): real { ship.x + ship.width / 2.0 }

  /** One volley: `level` bullets of the fixed size at the ship's height,
      spaced BulletSpacing apart and fanned symmetrically about the ship's
      centre. */
  function Volley(ship: Ship): (r: seq<Bullet>)
    ensures |r| == ship.level
    ensures forall i :: 0 <= i < |r| ==>
      r[i].y == ship.y && r[i].width == BulletWidth && r[i].height == BulletHeight
    ensures forall i :: 0 <= i < |r| - 1 ==> r[i + 1].x - r[i].x == BulletSpacing
    // the i-th bullet from the left and the i-th from the right mirror each
    // other about the ship's centre
    ensures forall i :: 0 <= i < |r| ==>
      BulletCentre(r[i]) + BulletCentre(r[|r| - 1 - i]) == 2.0 * ShipCentre(ship)
  {
    var n := ship.level as real;
    seq(ship.level, i requires 0 <= i < ship.level =>
      Bullet(ship.x + ship.width / 2.0 - 2.5 + (i as real) * 10.0 - (n - 1.0) * 5.0,
             ship.y, BulletWidth, BulletHeight))
  }

  /** Sum of the bullets' centres. */
  function SumCentres(bs: seq<Bullet>): real
  {
    if bs == [] then 0.0 else SumCentres(bs[..|bs| - 1]) + BulletCentre(bs[|bs| - 1])
  }

  /** The first `n` bullets of a volley of `L` have centres summing to
      n * c + 5 * n * (n - L), where c is the ship's centre. */
  lemma {:induction false} VolleyPrefixSum(ship: Ship, n: nat)
    requires n <= ship.level
    ensures SumCentres(Volley(ship)[..n])
         == (n as real) * ShipCentre(ship)
            + 5.0 * (n as real) * ((n as real) - (ship.level as real))
    decreases n
  {
    var v := Volley(ship);
    if n > 0 {
      VolleyPrefixSum(ship, n - 1);
      assert v[..n][..n - 1] == v[..n - 1];
      var m := (n - 1) as real;
      var L := ship.level as real;
      var c := ShipCentre(ship);
      assert BulletCentre(v[n - 1]) == c + 10.0 * m - 5.0 * (L - 1.0);
      assert m * c + 5.0 * m * (m - L) + (c + 10.0 * m - 5.0 * (L - 1.0))
          == (m + 1.0) * c + 5.0 * (m + 1.0) * (m + 1.0 - L);
    }
  }

  /** The mean centre of a non-empty volley is the ship's centre. */
  lemma VolleyCentred(ship: Ship)
    ensures SumCentres(Volley(ship)) == (ship.level as real) * ShipCentre(ship)
  {
    VolleyPrefixSum(ship, ship.level);
    assert Volley(ship)[..ship.level] == Volley(ship);
  }

  /** Scaling by a number in [0, 1) keeps a value between 0 and itself. */
  lemma ScaleBetween(rnd: real, d: real)
    requires 0.0 <= rnd < 1.0
    ensures d > 0.0 ==> 0.0 <= rnd * d < d
    ensures d <= 0.0 ==> d <= rnd * d <= 0.0
  {
    assert d - rnd * d == (1.0 - rnd) * d;
  }

  /** The enemy a spawn tick creates from a random number `rnd` in [0, 1): at
      the top edge, ship-sized, at a horizontal position scaled from `rnd`
      across the canvas width less one ship width. */
  function NewEnemy(rnd: real, W: real): (e: Enemy)
    requires 0.0 <= rnd < 1.0
    ensures e.y == 0.0
    ensures e.width == SpaceshipSize && e.height == SpaceshipSize
    ensures W > SpaceshipSize ==> 0.0 <= e.x < W - SpaceshipSize
    ensures W <= SpaceshipSize ==> W - SpaceshipSize <= e.x <= 0.0
    ensures rnd == 0.0 ==> e.x == 0.0
  {
    var span := W - SpaceshipSize;
    var x := rnd * span;
    ScaleBetween(rnd, span);
    Enemy(x, 0.0, SpaceshipSize, SpaceshipSize)
  }

  /** Scaling by a positive number keeps the order of two values. */
  lemma ScaleOrdered(a: real, b: real, d: real)
    requires 0.0 <= a <= b && d > 0.0
    ensures a * d <= b * d
  {
  }

  /** A value in [0, d) is the fraction `x / d`, in [0, 1), of `d`. */
  lemma Fraction(x: real, d: real)
    requires 0.0 <= x < d
    ensures 0.0 <= x / d < 1.0
    ensures x / d * d == x
  {
  }

  /** A larger random number never places the enemy further left. */
  lemma NewEnemyOrdered(rnd1: real, rnd2: real, W: real)
    requires 0.0 <= rnd1 <= rnd2 < 1.0
    requires W > SpaceshipSize
    ensures NewEnemy(rnd1, W).x <= NewEnemy(rnd2, W).x
  {
    ScaleOrdered(rnd1, rnd2, W - SpaceshipSize);
    assert NewEnemy(rnd1, W).x == rnd1 * (W - SpaceshipSize);
    assert NewEnemy(rnd2, W).x == rnd2 * (W - SpaceshipSize);
  }

  /** Every position in [0, W - 30) is reached by some random number in
      [0, 1), so the spawn range is the whole interval. */
  lemma NewEnemyOnto(x: real, W: real)
    requires W > SpaceshipSize
    requires 0.0 <= x < W - SpaceshipSize
    ensures var rnd := x / (W - SpaceshipSize);
            0.0 <= rnd < 1.0 && NewEnemy(rnd, W).x == x
  {
    Fraction(x, W - SpaceshipSize);
  }
}
